=== FILE: README.md ===
# Daily Task Manager: task-list model

A Dafny model of the to-do list screen in `ETS/MainActivity.kt`. The model covers:

- the `Task` record and the two `SortOrder`s;
- `TaskViewModel`, as a pure state machine over `(tasks, sortOrder)`, with `addTask`, `removeTask`, `toggleTaskStatus`, `changeSortOrder` and the private `sortTasks`;
- the two text validators `isValidDate` and `isValidTime`;
- the field state and confirm button of `AddTaskDialog`.

Modules, one per concept:

| file | module | contents |
|---|---|---|
| `tasks.dfy` | `Tasks` | `Task`, `SortOrder`, the sort key, `Sorted` |
| `stable_sort.dfy` | `StableSort` | `sortedBy` as a stable insertion sort, and its characterisation |
| `seqs.dfy` | `Seqs` | `map`, sub-sequences, permutations |
| `text.dfy` | `Text` | `isBlank` / `isWhitespace` |
| `validation.dfy` | `Validation` | the two anchored patterns, character by character, with a numeric reference rendering |
| `task_view_model.dfy` | `TaskViewModel` | the view-model state machine |
| `add_task_dialog.dfy` | `AddTaskDialog` | dialog fields, edits, the confirm guard |

How the model represents the source:

- A `UUID` is an opaque integer. Only equality is used. `addTask` takes the fresh identifier as a parameter.
- A `Date` is its millisecond timestamp, an unbounded `int`. `Date` compares by that value.
- Kotlin's `sortedBy` is stable. Under `BY_STATUS` its key is the `Boolean` flag, with `false` before `true`. The model sorts on an integer key: the deadline, or 0/1 for the flag.
- The sort is written as an insertion sort. It is also characterised independently: the result is the unique sequence that is sorted and keeps, for every key, the tasks with that key in their input order (`StableSort.SortByUnique`).

## Model

| member | source | states |
|---|---|---|
| Tasks.KeyMatchesCompareTo | ETS/MainActivity.kt:78-79 | comparing two tasks' keys gives the same sign as `Date.compareTo` on their deadlines, or `Boolean.compareTo` (false before true) on their flags, which is what `sortedBy` compares |
| Text.IsBlank | ETS/MainActivity.kt:53 | a title is blank exactly when trimming its leading whitespace leaves nothing |
| StableSort.SortBy | ETS/MainActivity.kt:76-81 | `sortedBy` returns a permutation of its input of the same length, in non-decreasing key order |
| StableSort.SortByStable | ETS/MainActivity.kt:78-79 | `sortedBy` is stable: for every key, the tasks with that key keep their input order |
| StableSort.SortByUnique | ETS/MainActivity.kt:76-81 | any sorted and stable rearrangement of the input is exactly what `sortedBy` returns |
| StableSort.SortBySorted | ETS/MainActivity.kt:76-81 | re-sorting a list already sorted by the same order leaves it unchanged |
| StableSort.SortByIdempotent | ETS/MainActivity.kt:76-81 | sorting twice by the same order equals sorting once |
| TaskViewModel.SortTasks | ETS/MainActivity.kt:76-81 | `sortTasks` keeps the order, permutes the tasks, leaves them sorted by the current order, and is stable |
| TaskViewModel.SortTasksByDeadline | ETS/MainActivity.kt:78 | under `BY_DEADLINE` the re-sorted deadlines are non-decreasing |
| TaskViewModel.SortTasksByStatus | ETS/MainActivity.kt:79 | under `BY_STATUS` no completed task precedes a non-completed one |
| TaskViewModel.AddTask | ETS/MainActivity.kt:52-58 | a blank title leaves the whole state unchanged. Otherwise the order is kept, the list grows by one, and it holds the old tasks plus one new task. The new task has the given id, title and deadline and is not completed. The list is sorted and is a stable sort of the appended list |
| TaskViewModel.WithoutId | ETS/MainActivity.kt:61 | `filter { it.id != id }` is an order-preserving sub-sequence. It keeps every task with a different id as many times as it occurred, and no task with that id |
| TaskViewModel.RemoveTask | ETS/MainActivity.kt:60-62 | `removeTask` keeps the order and the tasks with a different id, in their original relative order, and removes every task with the given id. A sorted list stays sorted even though it is not re-sorted |
| TaskViewModel.SubsequenceSorted | ETS/MainActivity.kt:60-62 | removing tasks from a sorted list leaves it sorted |
| TaskViewModel.Toggled | ETS/MainActivity.kt:65-67 | the `map` step keeps the length and each task's id, title and deadline. It negates `isCompleted` exactly on tasks whose id matches |
| TaskViewModel.ToggleTaskStatus | ETS/MainActivity.kt:64-69 | `toggleTaskStatus` keeps the order and the length. The result is a permutation of the toggled list, the multiset of (id, title, deadline) is unchanged, and the list is a stable sort of the toggled list under the current order: tied tasks keep their relative order |
| TaskViewModel.ToggleTwice | ETS/MainActivity.kt:64-69 | toggling the same task twice gives back the original multiset of tasks |
| TaskViewModel.ChangeSortOrder | ETS/MainActivity.kt:71-74 | `changeSortOrder(o)` stores `o` and yields a stable, sorted permutation of the tasks under `o` |
| TaskViewModel.ChangeSortOrderIdempotent | ETS/MainActivity.kt:71-81 | choosing the same order twice gives the same state as choosing it once |
| TaskViewModel.StepKeepsValid | ETS/MainActivity.kt:52-81 | each of the four operations keeps the list sorted by the current order |
| TaskViewModel.ReachableValid | ETS/MainActivity.kt:45-82 | after any sequence of user actions from a sorted state, the list is sorted by the selected order |
| TaskViewModel.InitialReachableValid | ETS/MainActivity.kt:46-50 | from the initial empty, by-deadline view model, every reachable list is sorted by the selected order |
| Validation.FormattedDateIsValid | ETS/MainActivity.kt:335-338 | every day 1-31, month 1-12 and year 0-9999 written `DD/MM/YYYY` is accepted |
| Validation.ValidDateIsFormatted | ETS/MainActivity.kt:335-338 | every accepted date string is such a rendering, so nothing else is accepted |
| Validation.FormattedTimeIsValid | ETS/MainActivity.kt:340-343 | every hour 0-23 with minute 0-59, written `HH:MM` or (hour below 10) `H:MM`, is accepted |
| Validation.ValidTimeIsFormatted | ETS/MainActivity.kt:340-343 | every accepted time string is such a rendering, so nothing else is accepted |
| Validation.IsValidDate | ETS/MainActivity.kt:335-338 | `isValidDate` accepts a string exactly when it is the `DD/MM/YYYY` rendering of a day 1-31, a month 1-12 and a year 0-9999 |
| Validation.IsValidTime | ETS/MainActivity.kt:340-343 | `isValidTime` accepts a string exactly when it is the `H:MM` (hour below 10) or `HH:MM` rendering of an hour 0-23 and a minute 0-59 |
| Validation.PatternEdgeCases | ETS/MainActivity.kt:335-343 | the two patterns accept "31/02/2024" (no day/month cross-check). They reject single-digit days, day 00, month 13, "24:00", "7:5" and minute 60 |
| AddTaskDialog.Confirm | ETS/MainActivity.kt:312-321 | confirm sets the title error exactly when the title is blank, the date error exactly when the date is invalid and the time error exactly when the time is invalid. It submits exactly when no error flag is raised, which holds exactly when the title is not blank and both texts match their patterns. The texts are kept |
| AddTaskDialog.MaySubmit | ETS/MainActivity.kt:317 | the submit condition holds exactly when the title has a non-whitespace character and the date and time texts render an in-range date and time |
| AddTaskDialog.ConfirmIgnoresStaleFlags | ETS/MainActivity.kt:265-268 | confirm depends only on the three texts and never on the error flags the edit handlers leave, so a title error shown while typing cannot block a later submit |
| AddTaskDialog.ApplyEditsKeepsLastTyped | ETS/MainActivity.kt:265-300 | after any sequence of edits, each field holds the text last typed into it, or its earlier value if it was never edited |
| AddTaskDialog.ApplyEditsFlags | ETS/MainActivity.kt:265-300 | after any sequence of edits the title error is the blank check of the last title typed (unchanged if the title was never edited), and the date or time error stays only if that field was never edited |
| AddTaskDialog.EditedDialogFlags | ETS/MainActivity.kt:251-300 | in a freshly opened dialog, before any confirm, no date or time error is shown, and a title error is shown exactly when the title was edited and the last title typed is blank |
| AddTaskDialog.TypedDialogSubmits | ETS/MainActivity.kt:251-320 | from a freshly opened dialog, after any sequence of edits to the three fields in any interleaving, confirm submits exactly when the title, date and time last typed pass the submit condition |
| AddTaskDialog.ConfirmAndAdd | ETS/MainActivity.kt:178-185 | a rejected confirm leaves the view model unchanged. An accepted one always adds exactly one new, uncompleted task with the dialog's title, so the view model's own blank check never discards it. The list is then re-sorted: sorted by the current order and a stable sort of the old list with the new task appended |

## Left out

- `parseDateTime` (ETS/MainActivity.kt:345-348): it calls `SimpleDateFormat` with the default locale and time zone, and falls back to the current time. The parsed deadline is a parameter of `AddTaskDialog.ConfirmAndAdd`.
- `UUID.randomUUID()` and the current `Date()`: they are not deterministic. Identifiers and deadlines are parameters, and no freshness is assumed. With a repeated identifier, `removeTask` and `toggleTaskStatus` act on every task carrying it, as the source does.
- Compose state holders (`mutableStateOf`, `State`), the `ViewModel` lifecycle, and all `@Composable` rendering (`TaskManagerApp`, `TaskItem`, dialog layout, `showDialog`): this is UI plumbing. The view model is a plain state record.
- Date display formatting in `TaskItem` (ETS/MainActivity.kt:196, 232): a library call with no logic of its own.
- Validation.IsDigit: reads the pattern class `\d` as the ASCII digits 0-9. That is its meaning in `java.util.regex` on a desktop JVM. On Android the ICU-based engine also matches other Unicode decimal digits (category Nd) at the `\d` positions of the year, the hour and the minutes, for example "01/01/٢٠٢٤". The model rejects those strings; modelling them needs the Unicode Nd table of the device's ICU version.
- Text.IsWhitespace: follows `Character.isWhitespace || Character.isSpaceChar` for the current Unicode tables. U+180E was a space separator in older Unicode versions and is not whitespace here.
- Text.IsBlank: works on Unicode scalar values, while Kotlin strings are UTF-16. No supplementary character is whitespace, so the two agree.
- The other applications in the repository (EAS/MainActivity.kt and the `Tugas` folders): they are separate screens with no logic this model covers.

=== FILE: add_task_dialog.dfy ===
/**
 The field state of `AddTaskDialog` (ETS/MainActivity.kt) and its confirm
 button: the title must not be blank and both text fields must match their
 patterns before the task is handed to the view model. Turning the two texts
 into a `Date` (`parseDateTime`) is a library call, so the resulting deadline
 is a parameter.
 */
module AddTaskDialog {
  import opened Tasks
  import opened Text
  import opened Validation
  import opened StableSort
  import opened TaskViewModel

  /** The dialog's remembered text fields and the error flag shown under each. */
  datatype Fields = Fields(
    title: string, dateText: string, timeText: string,
    titleError: bool, dateError: bool, timeError: bool)

  /** A freshly opened dialog: empty fields, no errors shown. */
  const Opened := Fields("", "", "", false, false, false)

  /**
   Editing the title re-checks it for blankness at once, with the same check
   confirm applies to it.
   */
  function EditTitle(f: Fields, text: string): Fields
  {
    f.(title := text, titleError := IsBlank(text))
  }

  /** Editing the date clears its error until the next confirm. */
  function EditDate(f: Fields, text: string): Fields
  {
    f.(dateText := text, dateError := false)
  }

  /** Editing the time clears its error until the next confirm. */
  function EditTime(f: Fields, text: string): Fields
  {
    f.(timeText := text, timeError := false)
  }

  /**
   The condition under which the confirm button hands a task over: a title
   with a non-whitespace character, and texts that render an in-range date
   and time.
   */
  predicate MaySubmit(title: string, dateText: string, timeText: string): (ok: bool)
    ensures ok <==> TrimStart(title) != [] && IsDateRendering(dateText) && IsTimeRendering(timeText)
  {
    !IsBlank(title) && IsValidDate(dateText) && IsValidTime(timeText)
  }

  /** The fields after pressing confirm, and whether `onTaskAdded` was called. */
  datatype Confirmation = Confirmation(fields: Fields, submitted: bool)

  /** The confirm button: recompute all three error flags, submit when none is raised. */
  function Confirm(f: Fields): (c: Confirmation)
    ensures c.fields.title == f.title && c.fields.dateText == f.dateText && c.fields.timeText == f.timeText
    ensures c.submitted <==> !c.fields.titleError && !c.fields.dateError && !c.fields.timeError
    ensures c.submitted <==> MaySubmit(f.title, f.dateText, f.timeText)
    ensures c.fields.titleError <==> IsBlank(f.title)
    ensures c.fields.dateError <==> !IsValidDate(f.dateText)
    ensures c.fields.timeError <==> !IsValidTime(f.timeText)
  {
    var checked := f.(
      titleError := IsBlank(f.title),
      dateError := !IsValidDate(f.dateText),
      timeError := !IsValidTime(f.timeText));
    Confirmation(checked, !checked.titleError && !checked.dateError && !checked.timeError)
  }

  /**
   Confirm never reads the flags the edit handlers leave behind: a stale title
   error from typing cannot block a later submit.
   */
  lemma ConfirmIgnoresStaleFlags(f: Fields, g: Fields)
    requires f.title == g.title && f.dateText == g.dateText && f.timeText == g.timeText
    ensures Confirm(f) == Confirm(g)
  {
  }

  /** The three text fields of the dialog. */
  datatype Field = TitleField | DateField | TimeField

  /** One edit: the user types `text` into `field` (an `onValueChange` call). */
  datatype Edit = Type(field: Field, text: string)

  function FieldText(f: Fields, field: Field): string
  {
    match field
    case TitleField => f.title
    case DateField => f.dateText
    case TimeField => f.timeText
  }

  function ApplyEdit(f: Fields, e: Edit): Fields
  {
    match e.field
    case TitleField => EditTitle(f, e.text)
    case DateField => EditDate(f, e.text)
    case TimeField => EditTime(f, e.text)
  }

  /** The fields after the edits `es`, applied in order. */
  function ApplyEdits(f: Fields, es: seq<Edit>): Fields
    decreases |es|
  {
    if es == [] then f else ApplyEdit(ApplyEdits(f, es[..|es| - 1]), es[|es| - 1])
  }

  /** The text last typed into `field` in `es`, or `initial` if it was never edited. */
  function LastTyped(es: seq<Edit>, field: Field, initial: string): string
    decreases |es|
  {
    if es == [] then initial
    else if es[|es| - 1].field == field then es[|es| - 1].text
    else LastTyped(es[..|es| - 1], field, initial)
  }

  /** Each field holds the text last typed into it, whatever the interleaving of edits. */
  lemma {:induction false} ApplyEditsKeepsLastTyped(f: Fields, es: seq<Edit>, field: Field)
    ensures FieldText(ApplyEdits(f, es), field) == LastTyped(es, field, FieldText(f, field))
    decreases |es|
  {
    if es != [] {
      ApplyEditsKeepsLastTyped(f, es[..|es| - 1], field);
    }
  }

  /** Some edit in `es` went to `field`. */
  predicate Edited(es: seq<Edit>, field: Field)
    decreases |es|
  {
    es != [] && (es[|es| - 1].field == field || Edited(es[..|es| - 1], field))
  }

  /**
   The error flags after a sequence of edits: the title error is the blank
   check of the last title typed (unchanged if the title was never edited), and
   editing the date or the time clears that field's error for good.
   */
  lemma {:induction false} ApplyEditsFlags(f: Fields, es: seq<Edit>)
    ensures ApplyEdits(f, es).titleError
        == if Edited(es, TitleField) then IsBlank(LastTyped(es, TitleField, f.title)) else f.titleError
    ensures ApplyEdits(f, es).dateError <==> f.dateError && !Edited(es, DateField)
    ensures ApplyEdits(f, es).timeError <==> f.timeError && !Edited(es, TimeField)
    decreases |es|
  {
    if es != [] {
      ApplyEditsFlags(f, es[..|es| - 1]);
    }
  }

  /**
   While the dialog is open and before any confirm, no date or time error is
   shown, and a title error is shown exactly when the title was edited and the
   last title typed is blank. In particular the empty title of a fresh dialog
   shows no error until it is typed into or confirmed.
   */
  lemma EditedDialogFlags(es: seq<Edit>)
    ensures !ApplyEdits(Opened, es).dateError && !ApplyEdits(Opened, es).timeError
    ensures ApplyEdits(Opened, es).titleError
        <==> Edited(es, TitleField) && IsBlank(LastTyped(es, TitleField, ""))
  {
    ApplyEditsFlags(Opened, es);
  }

  /**
   Opening the dialog, making any sequence of edits to the three fields and
   pressing confirm submits exactly when the last title, date and time typed
   pass their checks.
   */
  lemma TypedDialogSubmits(es: seq<Edit>)
    ensures Confirm(ApplyEdits(Opened, es)).submitted
        <==> MaySubmit(LastTyped(es, TitleField, ""), LastTyped(es, DateField, ""), LastTyped(es, TimeField, ""))
  {
    ApplyEditsKeepsLastTyped(Opened, es, TitleField);
    ApplyEditsKeepsLastTyped(Opened, es, DateField);
    ApplyEditsKeepsLastTyped(Opened, es, TimeField);
  }

  /**
   Pressing confirm with the view model in state `st`. `id` is the fresh
   identifier and `deadline` what `parseDateTime` returned for the two texts.
   */
  function ConfirmAndAdd(st: State, f: Fields, id: Uuid, deadline: Timestamp): (r: State)
    ensures !MaySubmit(f.title, f.dateText, f.timeText) ==> r == st
    ensures MaySubmit(f.title, f.dateText, f.timeText) ==>
      && r.sortOrder == st.sortOrder
      && |r.tasks| == |st.tasks| + 1
      && multiset(r.tasks) == multiset(st.tasks) + multiset{NewTask(id, f.title, deadline)}
      && Valid(r)
      && Stable(st.sortOrder, st.tasks + [NewTask(id, f.title, deadline)], r.tasks)
  {
    if Confirm(f).submitted then AddTask(st, id, f.title, deadline) else st
  }
}

=== FILE: seqs.dfy ===
/**
 Generic facts about sequences used by the task list: element-wise mapping,
 the order-preserving sub-sequence relation, and how both interact with
 permutations (equal multisets).
 */
module Seqs {

  /** `f` applied to every element of `s`, in order (Kotlin's `map`). */
  function Map<T, U>(f: T -> U, s: seq<T>): (r: seq<U>)
    ensures |r| == |s|
    ensures forall i :: 0 <= i < |s| ==> r[i] == f(s[i])
  {
    seq(|s|, i requires 0 <= i < |s| => f(s[i]))
  }

  lemma MapConcat<T, U>(f: T -> U, a: seq<T>, b: seq<T>)
    ensures Map(f, a + b) == Map(f, a) + Map(f, b)
  {
  }

  /** Mapping a permutation gives a permutation of the mapped sequence. */
  lemma {:induction false} MapPermutation<T, U>(f: T -> U, a: seq<T>, b: seq<T>)
    requires multiset(a) == multiset(b)
    ensures multiset(Map(f, a)) == multiset(Map(f, b))
    decreases |a|
  {
    if a == [] {
      assert |b| == |multiset(b)| == 0;
    } else {
      assert a[0] in multiset(b);
      var i :| 0 <= i < |b| && b[i] == a[0];
      var rest := b[..i] + b[i + 1..];
      assert b == b[..i] + [b[i]] + b[i + 1..];
      assert a == [a[0]] + a[1..];
      calc {
        multiset(b);
        multiset(b[..i]) + multiset{b[i]} + multiset(b[i + 1..]);
        multiset(rest) + multiset{a[0]};
      }
      assert multiset(a) == multiset(a[1..]) + multiset{a[0]};
      assert multiset(a[1..]) == multiset(a) - multiset{a[0]} == multiset(rest);
      MapPermutation(f, a[1..], rest);
      MapConcat(f, b[..i] + [b[i]], b[i + 1..]);
      MapConcat(f, b[..i], [b[i]]);
      MapConcat(f, b[..i], b[i + 1..]);
      MapConcat(f, [a[0]], a[1..]);
    }
  }

  /** `a` can be obtained from `b` by deleting elements, keeping the rest in order. */
  predicate Subsequence<T(==)>(a: seq<T>, b: seq<T>)
    decreases |b|
  {
    if a == [] then true
    else if b == [] then false
    else (a[0] == b[0] && Subsequence(a[1..], b[1..])) || Subsequence(a, b[1..])
  }

  /** Every element of a sub-sequence comes from the sequence it was taken from. */
  lemma {:induction false} SubsequenceMembers<T>(a: seq<T>, b: seq<T>)
    requires Subsequence(a, b)
    ensures forall x :: x in a ==> x in b
    decreases |b|
  {
    if a != [] {
      if a[0] == b[0] && Subsequence(a[1..], b[1..]) {
        SubsequenceMembers(a[1..], b[1..]);
        assert forall x :: x in a ==> x == a[0] || x in a[1..];
      } else {
        SubsequenceMembers(a, b[1..]);
      }
    }
  }

  /** Two positions of a sub-sequence come from two positions of the original sequence, in the same order. */
  lemma {:induction false} SubsequenceIndices<T>(a: seq<T>, b: seq<T>, i: nat, j: nat)
    requires Subsequence(a, b)
    requires i < j < |a|
    ensures exists p, q :: 0 <= p < q < |b| && b[p] == a[i] && b[q] == a[j]
    decreases |b|
  {
    if a[0] == b[0] && Subsequence(a[1..], b[1..]) {
      if i == 0 {
        SubsequenceMembers(a[1..], b[1..]);
        assert a[j] == a[1..][j - 1];
        assert a[j] in b[1..];
        var q :| 0 <= q < |b[1..]| && b[1..][q] == a[j];
        assert b[0] == a[i] && b[q + 1] == a[j];
      } else {
        SubsequenceIndices(a[1..], b[1..], i - 1, j - 1);
        var p, q :| 0 <= p < q < |b[1..]| && b[1..][p] == a[1..][i - 1] && b[1..][q] == a[1..][j - 1];
        assert b[p + 1] == a[i] && b[q + 1] == a[j];
      }
    } else {
      SubsequenceIndices(a, b[1..], i, j);
      var p, q :| 0 <= p < q < |b[1..]| && b[1..][p] == a[i] && b[1..][q] == a[j];
      assert b[p + 1] == a[i] && b[q + 1] == a[j];
    }
  }
}

=== FILE: stable_sort.dfy ===
/**
 Kotlin's `sortedBy` on the task list: a stable sort on the key of the current
 sort order. It is modelled as an insertion sort, and is characterised
 independently as the unique sorted sequence that keeps, for every key, the
 tasks with that key in their original relative order.
 */
module StableSort {
  import opened Tasks

  /** The tasks of `s` whose key under `order` is `k`, in their order in `s`. */
  function WithKey(order: SortOrder, s: seq<Task>, k: int): (r: seq<Task>)
    ensures |r| <= |s|
  {
    if s == [] then []
    else (if Key(order, s[0]) == k then [s[0]] else []) + WithKey(order, s[1..], k)
  }

  /** A key class holds exactly the tasks of `s` with that key. */
  lemma {:induction false} WithKeyMembers(order: SortOrder, s: seq<Task>, k: int, t: Task)
    ensures t in WithKey(order, s, k) <==> t in s && Key(order, t) == k
    decreases |s|
  {
    if s != [] {
      WithKeyMembers(order, s[1..], k, t);
      assert t in s <==> t == s[0] || t in s[1..] by {
        assert s == [s[0]] + s[1..];
      }
    }
  }

  /** `r` keeps the relative order of `s` among tasks with equal keys. */
  ghost predicate Stable(order: SortOrder, s: seq<Task>, r: seq<Task>)
  {
    forall k :: WithKey(order, r, k) == WithKey(order, s, k)
  }

  /** Puts `x` in front of the first task whose key is not smaller than its own. */
  function Insert(order: SortOrder, x: Task, s: seq<Task>): (r: seq<Task>)
    ensures |r| == |s| + 1
    ensures multiset(r) == multiset(s) + multiset{x}
  {
    if s == [] then [x]
    else if Key(order, x) <= Key(order, s[0]) then [x] + s
    else
      assert s == [s[0]] + s[1..];
      [s[0]] + Insert(order, x, s[1..])
  }

  /** Inserting into a sorted sequence keeps it sorted. */
  lemma {:induction false} InsertSorted(order: SortOrder, x: Task, s: seq<Task>)
    requires Sorted(order, s)
    ensures Sorted(order, Insert(order, x, s))
    decreases |s|
  {
    if s != [] && Key(order, s[0]) < Key(order, x) {
      var tail := Insert(order, x, s[1..]);
      InsertSorted(order, x, s[1..]);
      forall j | 0 <= j < |tail| ensures Key(order, s[0]) <= Key(order, tail[j]) {
        assert tail[j] in multiset(tail);
        assert tail[j] == x || tail[j] in multiset(s[1..]);
      }
      assert Insert(order, x, s) == [s[0]] + tail;
    }
  }

  /** `s` sorted by the key of `order`, keeping equal keys in their original order. */
  function SortBy(order: SortOrder, s: seq<Task>): (r: seq<Task>)
    ensures |r| == |s|
    ensures multiset(r) == multiset(s)
    ensures Sorted(order, r)
  {
    if s == [] then []
    else
      assert s == [s[0]] + s[1..];
      InsertSorted(order, s[0], SortBy(order, s[1..]));
      Insert(order, s[0], SortBy(order, s[1..]))
  }

  /** The key class of a sequence with `x` in front. */
  lemma WithKeyCons(order: SortOrder, x: Task, s: seq<Task>, k: int)
    ensures WithKey(order, [x] + s, k) == (if Key(order, x) == k then [x] else []) + WithKey(order, s, k)
  {
    assert ([x] + s)[1..] == s;
  }

  lemma SwapFronts<T>(a: seq<T>, b: seq<T>, w: seq<T>)
    requires a == [] || b == []
    ensures b + (a + w) == a + (b + w)
  {
  }

  /** Inserting `x` adds it at the front of its own key class and leaves the other classes alone. */
  lemma {:induction false} InsertWithKey(order: SortOrder, x: Task, s: seq<Task>, k: int)
    ensures WithKey(order, Insert(order, x, s), k)
         == (if Key(order, x) == k then [x] else []) + WithKey(order, s, k)
    decreases |s|
  {
    if s == [] {
      assert Insert(order, x, s) == [x];
    } else if Key(order, x) <= Key(order, s[0]) {
      assert Insert(order, x, s) == [x] + s;
      WithKeyCons(order, x, s, k);
    } else {
      var tail := Insert(order, x, s[1..]);
      assert Insert(order, x, s) == [s[0]] + tail;
      WithKeyCons(order, s[0], tail, k);
      InsertWithKey(order, x, s[1..], k);
      WithKeyCons(order, s[0], s[1..], k);
      assert s == [s[0]] + s[1..];
      SwapFronts(if Key(order, x) == k then [x] else [], if Key(order, s[0]) == k then [s[0]] else [], WithKey(order, s[1..], k));
    }
  }

  /** The sort is stable. */
  lemma {:induction false} SortByStable(order: SortOrder, s: seq<Task>)
    ensures Stable(order, s, SortBy(order, s))
    decreases |s|
  {
    if s != [] {
      SortByStable(order, s[1..]);
      forall k ensures WithKey(order, SortBy(order, s), k) == WithKey(order, s, k) {
        InsertWithKey(order, s[0], SortBy(order, s[1..]), k);
      }
    }
  }

  /** Two sorted sequences with the same key classes start with the same task. */
  lemma SameFirst(order: SortOrder, a: seq<Task>, b: seq<Task>)
    requires Sorted(order, a) && Sorted(order, b)
    requires forall k :: WithKey(order, a, k) == WithKey(order, b, k)
    requires a != []
    ensures b != [] && a[0] == b[0]
  {
    var ka := Key(order, a[0]);
    WithKeyMembers(order, a, ka, a[0]);
    WithKeyMembers(order, b, ka, a[0]);
    var kb := Key(order, b[0]);
    WithKeyMembers(order, b, kb, b[0]);
    WithKeyMembers(order, a, kb, b[0]);
    var i :| 0 <= i < |a| && a[i] == b[0];
    var j :| 0 <= j < |b| && b[j] == a[0];
    assert ka == kb;
    assert WithKey(order, a, ka) == [a[0]] + WithKey(order, a[1..], ka);
    assert WithKey(order, b, ka) == [b[0]] + WithKey(order, b[1..], ka);
    assert WithKey(order, a, ka)[0] == a[0];
  }

  /** Dropping the same first task from both sides keeps the key classes equal. */
  lemma {:induction false} SameTailClasses(order: SortOrder, a: seq<Task>, b: seq<Task>, k: int)
    requires a != [] && b != [] && a[0] == b[0]
    requires WithKey(order, a, k) == WithKey(order, b, k)
    ensures WithKey(order, a[1..], k) == WithKey(order, b[1..], k)
  {
    var here := if Key(order, a[0]) == k then [a[0]] else [];
    var ta := WithKey(order, a[1..], k);
    var tb := WithKey(order, b[1..], k);
    assert WithKey(order, a, k) == here + ta;
    assert WithKey(order, b, k) == here + tb;
    assert ta == (here + ta)[|here|..];
    assert tb == (here + tb)[|here|..];
  }

  /** Two sorted sequences with the same key classes are the same sequence. */
  lemma {:induction false} SortedClassesDetermine(order: SortOrder, a: seq<Task>, b: seq<Task>)
    requires Sorted(order, a) && Sorted(order, b)
    requires forall k :: WithKey(order, a, k) == WithKey(order, b, k)
    ensures a == b
    decreases |a|
  {
    if a == [] {
      if b != [] {
        SameFirst(order, b, a);
      }
    } else {
      SameFirst(order, a, b);
      forall k ensures WithKey(order, a[1..], k) == WithKey(order, b[1..], k) {
        SameTailClasses(order, a, b, k);
      }
      SortedClassesDetermine(order, a[1..], b[1..]);
      assert a == [a[0]] + a[1..];
      assert b == [b[0]] + b[1..];
    }
  }

  /** `SortBy` is the only sorted, stable rearrangement of its input. */
  lemma SortByUnique(order: SortOrder, s: seq<Task>, r: seq<Task>)
    requires Sorted(order, r) && Stable(order, s, r)
    ensures r == SortBy(order, s)
  {
    SortByStable(order, s);
    SortedClassesDetermine(order, r, SortBy(order, s));
  }

  /** Sorting an already sorted sequence changes nothing. */
  lemma {:induction false} SortBySorted(order: SortOrder, s: seq<Task>)
    requires Sorted(order, s)
    ensures SortBy(order, s) == s
  {
    SortByUnique(order, s, s);
  }

  /** Sorting twice by the same order is sorting once. */
  lemma {:induction false} SortByIdempotent(order: SortOrder, s: seq<Task>)
    ensures SortBy(order, SortBy(order, s)) == SortBy(order, s)
  {
    SortBySorted(order, SortBy(order, s));
  }
}

=== FILE: task_view_model.dfy ===
/**
 `TaskViewModel` (ETS/MainActivity.kt) as a state machine: the state is the
 ordered task list and the current sort order, and each public operation is a
 pure transition. Fresh identifiers (`UUID.randomUUID()`) and deadlines are
 parameters of `AddTask`.
 */
module TaskViewModel {
  import opened Tasks
  import opened Seqs
  import opened StableSort
  import opened Text

  datatype State = State(tasks: seq<Task>, sortOrder: SortOrder)

  /** A freshly created view model: no tasks, ordered by deadline. */
  const Initial := State([], ByDeadline)

  /** What every reachable state satisfies: its list is sorted by its own order. */
  predicate Valid(st: State)
  {
    Sorted(st.sortOrder, st.tasks)
  }

  /** The private `sortTasks`: a stable sort on the current order's key. */
  function SortTasks(st: State): (r: State)
    ensures r.sortOrder == st.sortOrder
    ensures multiset(r.tasks) == multiset(st.tasks)
    ensures Valid(r)
    ensures Stable(st.sortOrder, st.tasks, r.tasks)
  {
    SortByStable(st.sortOrder, st.tasks);
    State(SortBy(st.sortOrder, st.tasks), st.sortOrder)
  }

  /** Under `ByDeadline` the sorted list has non-decreasing deadlines. */
  lemma SortTasksByDeadline(st: State)
    requires st.sortOrder == ByDeadline
    ensures forall i, j :: 0 <= i < j < |SortTasks(st).tasks| ==>
      SortTasks(st).tasks[i].deadline <= SortTasks(st).tasks[j].deadline
  {
  }

  /** Under `ByStatus` every open task comes before every completed one. */
  lemma SortTasksByStatus(st: State)
    requires st.sortOrder == ByStatus
    ensures forall i, j :: 0 <= i < j < |SortTasks(st).tasks| && SortTasks(st).tasks[i].isCompleted ==>
      SortTasks(st).tasks[j].isCompleted
  {
  }

  /** The task `addTask` creates: not completed, with the given identifier, title and deadline. */
  function NewTask(id: Uuid, title: string, deadline: Timestamp): Task
  {
    Task(id, title, deadline, false)
  }

  /**
   `addTask(title, deadline)`: a blank title is ignored; otherwise the new task
   is appended and the list re-sorted under the current order.
   */
  function AddTask(st: State, id: Uuid, title: string, deadline: Timestamp): (r: State)
    ensures IsBlank(title) ==> r == st
    ensures !IsBlank(title) ==>
      && r.sortOrder == st.sortOrder
      && |r.tasks| == |st.tasks| + 1
      && multiset(r.tasks) == multiset(st.tasks) + multiset{NewTask(id, title, deadline)}
      && Valid(r)
      && Stable(st.sortOrder, st.tasks + [NewTask(id, title, deadline)], r.tasks)
  {
    if IsBlank(title) then st
    else SortTasks(State(st.tasks + [NewTask(id, title, deadline)], st.sortOrder))
  }

  /** Kotlin's `filter { it.id != id }`. */
  function WithoutId(s: seq<Task>, id: Uuid): (r: seq<Task>)
    ensures Subsequence(r, s)
    ensures forall t :: multiset(r)[t] == if t.id == id then 0 else multiset(s)[t]
  {
    if s == [] then []
    else
      var tail := WithoutId(s[1..], id);
      assert s == [s[0]] + s[1..];
      if s[0].id == id then
        tail
      else
        assert ([s[0]] + tail)[1..] == tail;
        [s[0]] + tail
  }

  /** A sub-sequence of a sorted list is sorted. */
  lemma SubsequenceSorted(order: SortOrder, a: seq<Task>, b: seq<Task>)
    requires Subsequence(a, b) && Sorted(order, b)
    ensures Sorted(order, a)
  {
    forall i, j | 0 <= i < j < |a| ensures Key(order, a[i]) <= Key(order, a[j]) {
      SubsequenceIndices(a, b, i, j);
    }
  }

  /**
   `removeTask(task)`: keeps, in their original order, exactly the tasks whose
   identifier differs from `task`'s. The list is not re-sorted, and needs not
   be: a sorted list stays sorted.
   */
  function RemoveTask(st: State, task: Task): (r: State)
    ensures r.sortOrder == st.sortOrder
    ensures Subsequence(r.tasks, st.tasks)
    ensures forall t :: multiset(r.tasks)[t] == if t.id == task.id then 0 else multiset(st.tasks)[t]
    ensures Valid(st) ==> Valid(r)
  {
    var kept := WithoutId(st.tasks, task.id);
    assert Valid(st) ==> Sorted(st.sortOrder, kept) by {
      if Valid(st) {
        SubsequenceSorted(st.sortOrder, kept, st.tasks);
      }
    }
    State(kept, st.sortOrder)
  }

  /** The completion flag of every task with identifier `id` negated, as `map { it.copy(...) }` does. */
  function Toggled(s: seq<Task>, id: Uuid): (r: seq<Task>)
    ensures |r| == |s|
    ensures forall i :: 0 <= i < |s| ==>
      && Identity(r[i]) == Identity(s[i])
      && r[i].isCompleted == (s[i].isCompleted != (s[i].id == id))
  {
    Map(t => Flip(t, id), s)
  }

  /**
   `toggleTaskStatus(task)`: the completion flag of the tasks with `task`'s
   identifier is negated, every other task is kept, and the list is re-sorted.
   */
  function ToggleTaskStatus(st: State, task: Task): (r: State)
    ensures r.sortOrder == st.sortOrder
    ensures |r.tasks| == |st.tasks|
    ensures multiset(r.tasks) == multiset(Toggled(st.tasks, task.id))
    ensures multiset(Map(Identity, r.tasks)) == multiset(Map(Identity, st.tasks))
    ensures Valid(r)
    ensures Stable(st.sortOrder, Toggled(st.tasks, task.id), r.tasks)
  {
    var flipped := Toggled(st.tasks, task.id);
    var r := SortTasks(State(flipped, st.sortOrder));
    MapPermutation(Identity, r.tasks, flipped);
    assert Map(Identity, flipped) == Map(Identity, st.tasks);
    r
  }

  /** Toggling the same task twice brings back the original tasks (in the current order). */
  lemma ToggleTwice(st: State, task: Task)
    ensures multiset(ToggleTaskStatus(ToggleTaskStatus(st, task), task).tasks) == multiset(st.tasks)
  {
    var once := ToggleTaskStatus(st, task).tasks;
    var flip := (t: Task) => Flip(t, task.id);
    MapPermutation(flip, once, Toggled(st.tasks, task.id));
    assert Map(flip, once) == Toggled(once, task.id);
    assert Map(flip, Toggled(st.tasks, task.id)) == st.tasks;
  }

  /** `changeSortOrder(order)`: stores the order and re-sorts by it. */
  function ChangeSortOrder(st: State, order: SortOrder): (r: State)
    ensures r.sortOrder == order
    ensures multiset(r.tasks) == multiset(st.tasks)
    ensures Valid(r)
    ensures Stable(order, st.tasks, r.tasks)
  {
    SortTasks(State(st.tasks, order))
  }

  /** Choosing the same order twice is the same as choosing it once. */
  lemma ChangeSortOrderIdempotent(st: State, order: SortOrder)
    ensures ChangeSortOrder(ChangeSortOrder(st, order), order) == ChangeSortOrder(st, order)
  {
    SortByIdempotent(order, st.tasks);
  }

  /** The user actions the screen sends to the view model. */
  datatype Action =
    | Add(id: Uuid, title: string, deadline: Timestamp)
    | Remove(task: Task)
    | ToggleStatus(task: Task)
    | ChangeOrder(order: SortOrder)

  function Step(st: State, a: Action): State
  {
    match a
    case Add(id, title, deadline) => AddTask(st, id, title, deadline)
    case Remove(task) => RemoveTask(st, task)
    case ToggleStatus(task) => ToggleTaskStatus(st, task)
    case ChangeOrder(order) => ChangeSortOrder(st, order)
  }

  /** The state after a sequence of actions. */
  function Run(st: State, actions: seq<Action>): State
    decreases |actions|
  {
    if actions == [] then st else Run(Step(st, actions[0]), actions[1..])
  }

  /** Every operation keeps the list sorted by the current order. */
  lemma StepKeepsValid(st: State, a: Action)
    requires Valid(st)
    ensures Valid(Step(st, a))
  {
  }

  /** Whatever the user does, the list on screen is sorted by the selected order. */
  lemma {:induction false} ReachableValid(st: State, actions: seq<Action>)
    requires Valid(st)
    ensures Valid(Run(st, actions))
    decreases |actions|
  {
    if actions != [] {
      StepKeepsValid(st, actions[0]);
      ReachableValid(Step(st, actions[0]), actions[1..]);
    }
  }

  /** From the freshly created view model, the list is always sorted by the selected order. */
  lemma InitialReachableValid(actions: seq<Action>)
    ensures Valid(Run(Initial, actions))
  {
    ReachableValid(Initial, actions);
  }
}

=== FILE: tasks.dfy ===
/**
 The task record and the sort orders of the to-do list (ETS/MainActivity.kt).
 */
module Tasks {

  /** Stands in for `java.util.UUID`: only equality of identifiers is ever used. */
  type Uuid = int

  /** A deadline as a `java.util.Date`, i.e. milliseconds since the epoch; dates compare by this value. */
  type Timestamp = int

  /** One to-do item. `isCompleted` defaults to false when a task is created. */
  datatype Task = Task(id: Uuid, title: string, deadline: Timestamp, isCompleted: bool)

  /** The two orders the list can be shown in. */
  datatype SortOrder = ByDeadline | ByStatus

  /**
   The value `sortedBy` compares under each order. Under `ByStatus` the key is
   the completion flag, and Kotlin orders `false` before `true`.
   */
  function Key(order: SortOrder, t: Task): int
  {
    match order
    case ByDeadline => t.deadline
    case ByStatus => if t.isCompleted then 1 else 0
  }

  /** The sign of a Kotlin `compareTo`. */
  function Sign(x: int): int
  {
    if x < 0 then -1 else if x == 0 then 0 else 1
  }

  /**
   `compareValuesBy` on the selected field, as `sortedBy` calls it:
   `Date.compareTo` on the deadlines, `Boolean.compareTo` on the flags.
   */
  function CompareSelected(order: SortOrder, t: Task, u: Task): int
  {
    match order
    case ByDeadline =>
      if t.deadline < u.deadline then -1 else if t.deadline == u.deadline then 0 else 1
    case ByStatus =>
      if t.isCompleted == u.isCompleted then 0 else if t.isCompleted then 1 else -1
  }

  /** Comparing keys orders any two tasks as `sortedBy`'s own comparison does. */
  lemma KeyMatchesCompareTo(order: SortOrder, t: Task, u: Task)
    ensures Sign(Key(order, t) - Key(order, u)) == CompareSelected(order, t, u)
  {
  }

  /** `s` is in non-decreasing key order under `order`. */
  predicate Sorted(order: SortOrder, s: seq<Task>)
  {
    forall i, j :: 0 <= i < j < |s| ==> Key(order, s[i]) <= Key(order, s[j])
  }

  /** The completion flag with `id`'s tasks negated, as `it.copy(isCompleted = !it.isCompleted)` does. */
  function Flip(t: Task, id: Uuid): Task
  {
    if t.id == id then t.(isCompleted := !t.isCompleted) else t
  }

  /** What toggling never changes: the identifier, title and deadline of a task. */
  function Identity(t: Task): (Uuid, string, Timestamp)
  {
    (t.id, t.title, t.deadline)
  }
}

=== FILE: text.dfy ===
/**
 Kotlin's `String.isBlank()` as the task list uses it: a title is blank when
 every character is whitespace (the empty title included).
 */
module Text {

  /**
   Kotlin's `Char.isWhitespace()` on the JVM: `Character.isWhitespace` or
   `Character.isSpaceChar`. That is the ASCII controls TAB, LF, VT, FF, CR and
   FS, GS, RS, US, and the Unicode space, line and paragraph separators
   (including the no-break spaces U+00A0, U+2007 and U+202F).
   */
  predicate IsWhitespace(c: char)
  {
    var n := c as int;
    || 0x09 <= n <= 0x0D
    || 0x1C <= n <= 0x20
    || n == 0xA0
    || n == 0x1680
    || 0x2000 <= n <= 0x200A
    || n == 0x2028 || n == 0x2029
    || n == 0x202F || n == 0x205F
    || n == 0x3000
  }

  /** Kotlin's `trimStart()`: `s` without its leading whitespace. */
  function TrimStart(s: string): (r: string)
    ensures |r| <= |s| && r == s[|s| - |r|..]
    ensures forall i :: 0 <= i < |s| - |r| ==> IsWhitespace(s[i])
    ensures r == [] || !IsWhitespace(r[0])
  {
    if s == [] then []
    else if IsWhitespace(s[0]) then TrimStart(s[1..])
    else s
  }

  /** `s.isBlank()`: trimming leading whitespace leaves nothing. */
  predicate IsBlank(s: string): (b: bool)
    ensures b <==> TrimStart(s) == []
  {
    forall i :: 0 <= i < |s| ==> IsWhitespace(s[i])
  }
}

=== FILE: validation.dfy ===
/**
 The two anchored patterns the add-task dialog checks its text fields with,
 `isValidDate` and `isValidTime`, written out character by character, one
 disjunct per alternative of the pattern. Each is tied to an independent
 numeric description: the strings accepted are exactly the zero-padded
 renderings of a day, month and year (resp. an hour and minute) in range.
 */
module Validation {

  /**
   The class `\d`, read as the ASCII digits. That is its meaning in
   `java.util.regex` on a desktop JVM (without UNICODE_CHARACTER_CLASS); the
   ICU-based engine on Android also admits other Unicode decimal digits.
   */
  predicate IsDigit(c: char)
  {
    '0' <= c <= '9'
  }

  /** `0[1-9]|[12][0-9]|3[01]` */
  predicate IsDay(a: char, b: char)
  {
    || (a == '0' && '1' <= b <= '9')
    || ((a == '1' || a == '2') && '0' <= b <= '9')
    || (a == '3' && (b == '0' || b == '1'))
  }

  /** `0[1-9]|1[0-2]` */
  predicate IsMonth(a: char, b: char)
  {
    || (a == '0' && '1' <= b <= '9')
    || (a == '1' && '0' <= b <= '2')
  }

  /** `^(0[1-9]|[12][0-9]|3[01])/(0[1-9]|1[0-2])/\d{4}$`, matched against the whole string. */
  predicate DatePattern(s: string)
  {
    && |s| == 10
    && IsDay(s[0], s[1])
    && s[2] == '/'
    && IsMonth(s[3], s[4])
    && s[5] == '/'
    && IsDigit(s[6]) && IsDigit(s[7]) && IsDigit(s[8]) && IsDigit(s[9])
  }

  /** `[01]?\d|2[0-3]`: one digit, or two digits from 00 to 23. */
  predicate IsHour(h: string)
  {
    || (|h| == 1 && IsDigit(h[0]))
    || (|h| == 2 && (((h[0] == '0' || h[0] == '1') && IsDigit(h[1])) || (h[0] == '2' && '0' <= h[1] <= '3')))
  }

  /** `[0-5]\d` */
  predicate IsMinute(a: char, b: char)
  {
    '0' <= a <= '5' && IsDigit(b)
  }

  /**
   `^([01]?\d|2[0-3]):([0-5]\d)$`, matched against the whole string. The hour
   alternatives contain no colon, so the colon sits at index 1 or 2.
   */
  predicate TimePattern(s: string)
  {
    || (|s| == 4 && IsHour(s[..1]) && s[1] == ':' && IsMinute(s[2], s[3]))
    || (|s| == 5 && IsHour(s[..2]) && s[2] == ':' && IsMinute(s[3], s[4]))
  }

  // Reference rendering of numbers as the patterns expect them.

  function DigitChar(d: nat): (c: char)
    requires d < 10
    ensures IsDigit(c)
  {
    ('0' as int + d) as char
  }

  function DigitValue(c: char): (d: nat)
    requires IsDigit(c)
    ensures d < 10 && DigitChar(d) == c
  {
    c as int - '0' as int
  }

  /** `n` as exactly two decimal digits, with a leading zero below ten. */
  function Pad2(n: nat): (r: string)
    requires n < 100
    ensures |r| == 2 && IsDigit(r[0]) && IsDigit(r[1])
    ensures 10 * DigitValue(r[0]) + DigitValue(r[1]) == n
  {
    [DigitChar(n / 10), DigitChar(n % 10)]
  }

  /** `n` as exactly four decimal digits, zero-padded. */
  function Pad4(n: nat): (r: string)
    requires n < 10000
    ensures |r| == 4
    ensures forall i :: 0 <= i < 4 ==> IsDigit(r[i])
  {
    Pad2(n / 100) + Pad2(n % 100)
  }

  /** The date `d/m/y` written as `DD/MM/YYYY`. */
  function FormatDate(d: nat, m: nat, y: nat): string
    requires 1 <= d <= 31 && 1 <= m <= 12 && y <= 9999
  {
    Pad2(d) + "/" + Pad2(m) + "/" + Pad4(y)
  }

  /** The time `h:m` with the hour written with one digit (`H:MM`) or two (`HH:MM`). */
  function FormatTime(h: nat, m: nat, twoDigitHour: bool): string
    requires h <= 23 && m <= 59 && (twoDigitHour || h <= 9)
  {
    (if twoDigitHour then Pad2(h) else [DigitChar(h)]) + ":" + Pad2(m)
  }

  /** `s` is the `DD/MM/YYYY` rendering of some in-range day, month and year. */
  ghost predicate IsDateRendering(s: string)
  {
    exists d: nat, m: nat, y: nat :: 1 <= d <= 31 && 1 <= m <= 12 && y <= 9999 && s == FormatDate(d, m, y)
  }

  /** `s` is the `H:MM` or `HH:MM` rendering of some hour from 0 to 23 and minute from 0 to 59. */
  ghost predicate IsTimeRendering(s: string)
  {
    exists h: nat, m: nat, twoDigitHour: bool ::
      h <= 23 && m <= 59 && (twoDigitHour || h <= 9) && s == FormatTime(h, m, twoDigitHour)
  }

  lemma Pad2Digits(a: char, b: char)
    requires IsDigit(a) && IsDigit(b)
    ensures Pad2(10 * DigitValue(a) + DigitValue(b)) == [a, b]
  {
  }

  lemma Split100(hi: nat, lo: nat)
    requires hi < 100 && lo < 100
    ensures (100 * hi + lo) / 100 == hi && (100 * hi + lo) % 100 == lo
  {
  }

  lemma Pad4Digits(s: string)
    requires |s| == 4 && IsDigit(s[0]) && IsDigit(s[1]) && IsDigit(s[2]) && IsDigit(s[3])
    ensures Pad4(100 * (10 * DigitValue(s[0]) + DigitValue(s[1])) + (10 * DigitValue(s[2]) + DigitValue(s[3]))) == s
  {
    var hi := 10 * DigitValue(s[0]) + DigitValue(s[1]);
    var lo := 10 * DigitValue(s[2]) + DigitValue(s[3]);
    Split100(hi, lo);
    Pad2Digits(s[0], s[1]);
    Pad2Digits(s[2], s[3]);
    assert s == [s[0], s[1]] + [s[2], s[3]];
  }

  /** Every in-range day, month and four-digit year renders to an accepted date. */
  lemma FormattedDateIsValid(d: nat, m: nat, y: nat)
    requires 1 <= d <= 31 && 1 <= m <= 12 && y <= 9999
    ensures DatePattern(FormatDate(d, m, y))
  {
  }

  /** Every accepted date is the rendering of an in-range day, month and year. */
  lemma ValidDateIsFormatted(s: string)
    requires DatePattern(s)
    ensures IsDateRendering(s)
  {
    var d := 10 * DigitValue(s[0]) + DigitValue(s[1]);
    var m := 10 * DigitValue(s[3]) + DigitValue(s[4]);
    var y := 100 * (10 * DigitValue(s[6]) + DigitValue(s[7])) + (10 * DigitValue(s[8]) + DigitValue(s[9]));
    Pad2Digits(s[0], s[1]);
    Pad2Digits(s[3], s[4]);
    Pad4Digits(s[6..10]);
    assert s == FormatDate(d, m, y);
  }

  /** Every in-range hour and minute renders, in either hour width, to an accepted time. */
  lemma FormattedTimeIsValid(h: nat, m: nat, twoDigitHour: bool)
    requires h <= 23 && m <= 59 && (twoDigitHour || h <= 9)
    ensures TimePattern(FormatTime(h, m, twoDigitHour))
  {
  }

  /** Every accepted time is the rendering of an hour from 0 to 23 and a minute from 0 to 59. */
  lemma ValidTimeIsFormatted(s: string)
    requires TimePattern(s)
    ensures IsTimeRendering(s)
  {
    if |s| == 4 {
      var h := DigitValue(s[0]);
      var m := 10 * DigitValue(s[2]) + DigitValue(s[3]);
      Pad2Digits(s[2], s[3]);
      assert s == FormatTime(h, m, false);
    } else {
      var h := 10 * DigitValue(s[0]) + DigitValue(s[1]);
      var m := 10 * DigitValue(s[3]) + DigitValue(s[4]);
      Pad2Digits(s[0], s[1]);
      Pad2Digits(s[3], s[4]);
      assert s == FormatTime(h, m, true);
    }
  }

  /** `isValidDate`: the date pattern accepts exactly the renderings of in-range dates. */
  predicate IsValidDate(date: string): (ok: bool)
    ensures ok <==> IsDateRendering(date)
  {
    assert DatePattern(date) ==> IsDateRendering(date) by {
      if DatePattern(date) {
        ValidDateIsFormatted(date);
      }
    }
    assert IsDateRendering(date) ==> DatePattern(date) by {
      if IsDateRendering(date) {
        var d: nat, m: nat, y: nat :| 1 <= d <= 31 && 1 <= m <= 12 && y <= 9999 && date == FormatDate(d, m, y);
        FormattedDateIsValid(d, m, y);
      }
    }
    DatePattern(date)
  }

  /** `isValidTime`: the time pattern accepts exactly the renderings of in-range times. */
  predicate IsValidTime(time: string): (ok: bool)
    ensures ok <==> IsTimeRendering(time)
  {
    assert TimePattern(time) ==> IsTimeRendering(time) by {
      if TimePattern(time) {
        ValidTimeIsFormatted(time);
      }
    }
    assert IsTimeRendering(time) ==> TimePattern(time) by {
      if IsTimeRendering(time) {
        var h: nat, m: nat, w: bool :| h <= 23 && m <= 59 && (w || h <= 9) && time == FormatTime(h, m, w);
        FormattedTimeIsValid(h, m, w);
      }
    }
    TimePattern(time)
  }

  /** Edge cases of the two patterns: no day/month cross-check, no hour 24, minutes always two digits. */
  lemma PatternEdgeCases()
    ensures DatePattern("31/02/2024")
    ensures !DatePattern("1/02/2024") && !DatePattern("00/01/2024") && !DatePattern("01/13/2024")
    ensures TimePattern("7:05") && TimePattern("07:05") && TimePattern("23:59")
    ensures !TimePattern("24:00") && !TimePattern("7:5") && !TimePattern("12:60")
  {
  }
}
